=== FILE: README.md ===
# Kong Ingress configuration Secret reconciler, modelled in Dafny

The railgun configuration controller of the Kong Kubernetes Ingress
Controller projects Ingress resources, and the Services their paths
name, into one shared configuration Secret. Each key of the Secret holds
the YAML of one object. The controller also keeps the Kong finalizer on
every Ingress it manages, so that an Ingress cannot disappear before its
entry is removed. This project models the three functions of
`railgun/controllers/configuration/secret_utils.go` that do this:

- `storeIngressObj`, the upsert pass;
- `storeRuntimeObject`, the single-key write with optimistic concurrency;
- `cleanupObj`, the teardown pass.

Each reconcile call is a pure step function `State -> Step`:

- A `State` holds the optional Secret data (a map from key to bytes), the
  reconciled object with its finalizers, and the set of Services that
  exist.
- A `Step` pairs the next `State` with an `Outcome`: `Done`, `Requeue` or
  `Failed(error)`.
- `Replies` gives the API server's answer to each call of the pass: Ok,
  NotFound, AlreadyExists, Conflict or another error. A race lost to
  another reconciler appears only as a Conflict answer.
- Collaborators whose code is not part of this model are fields of `Env`:
  the namespace environment variable, the finalizer marker, `isManaged`,
  `configsecret.KeyFor` and YAML marshalling.

Files:

- `objects.dfy` (module `Objects`): Ingress in its networking/v1 and v1beta1
  forms, Services, and the resolver that finds the first path's Service.
- `finalizers.dfy` (module `Finalizers`): finalizer append and filter.
- `cluster.dfy` (module `Cluster`): state, replies, errors, the Secret get and get-or-create.
- `secret_utils.dfy` (module `SecretUtils`): the three passes.
- `passes.dfy` (module `Passes`): what runs of several passes promise.
- `intended_upsert.dfy` (module `IntendedUpsert`): the corrected upsert pass (see Findings).

Behaviour of the code worth knowing before reading the model:

- A successful finalizer update (lines 104-110) does not end the pass. It
  falls through to the Ingress's own entry write (line 113) in the same
  pass, and the finalizer stays on even when that write conflicts.
- Any Ingress with a path returns Requeue right after its first Service
  is stored (lines 78 and 96), so it never reaches the finalizer or its
  own entry. See Findings.
- A failed Secret update on teardown is an error, a Conflict included
  (line 169-171). On upsert, a Conflict is a requeue (lines 138-141).
- Teardown with no Secret reports Done and never removes the finalizer
  (lines 162-164). `Passes.CleanupWithoutSecretKeepsFinalizer` states this.

## Model

| member | source | states |
|---|---|---|
| Objects.FirstPath | railgun/controllers/configuration/secret_utils.go:64-65 | The nested range loops stop at the first path of the first rule that has one. The result is None exactly when every rule has an empty HTTP section. Otherwise it is the head path of rule i, where every rule before i is pathless. |
| Objects.ResolveFirstService | railgun/controllers/configuration/secret_utils.go:62-101 | The type switch. Both Ingress versions resolve to the Service their first path names: the structured `service.name` in v1, the flat `serviceName` in v1beta1. Every other Go type is unsupported. |
| Finalizers.EnsureFinalizer | railgun/controllers/configuration/secret_utils.go:104-106 | The marker is appended only when it is absent. Existing finalizers keep their positions. The marker then appears exactly once if it was absent, and no other finalizer's count changes. |
| Finalizers.RemoveFinalizer | railgun/controllers/configuration/secret_utils.go:178-184 | The teardown filter removes every occurrence of the marker. Every other finalizer keeps its multiplicity. |
| Finalizers.RemoveFinalizerAppend | railgun/controllers/configuration/secret_utils.go:178-184 | The filter distributes over concatenation, so the kept finalizers stay in their original relative order. |
| Finalizers.RemoveAbsentFinalizer | railgun/controllers/configuration/secret_utils.go:178-184 | Filtering out a marker that is absent returns the list unchanged. |
| Finalizers.RemoveUndoesEnsure | railgun/controllers/configuration/secret_utils.go:104-106 | Removing the marker after appending it gives back the original list. |
| Finalizers.FilterFinalizers | railgun/controllers/configuration/secret_utils.go:178-184 | The loop that builds a fresh list of non-marker finalizers computes exactly the filter. |
| Cluster.GetOrCreateConfigSecret | railgun/controllers/configuration/secret_utils.go:47-58 | The Secret is found only when it exists and the call succeeds. When it is absent it is created empty and nothing else changes. A failed call is reported with its typed error. |
| Cluster.GetConfigSecret | railgun/controllers/configuration/secret_utils.go:161-164 | The Secret get fails with NotFound when the Secret is absent, and a failed call reports its own typed error. It succeeds only when the Secret exists and the call succeeds. |
| SecretUtils.StoreRuntimeObject | railgun/controllers/configuration/secret_utils.go:126-147 | On success, the object's key holds its serialised bytes and nothing else changes. A Conflict gives (requeue=true, err=nil) and leaves the state unchanged. Any other update error gives (false, err) and leaves the state unchanged. A marshalling failure gives an error. The code never returns requeue together with an error. |
| SecretUtils.StoreBackendService | railgun/controllers/configuration/secret_utils.go:66-78 | A missing Service or a failed lookup is an error that changes nothing. A successful update writes the Service's serialised form under its key and changes nothing else. A rejected update, a Conflict included, changes nothing. The outcome is Requeue on both a successful and a conflicting write, whose flag is discarded. A marshalling or other update failure is that error. The pass is never Done. |
| SecretUtils.WriteOwnEntry | railgun/controllers/configuration/secret_utils.go:112-122 | The Ingress's own write is Done exactly when marshalling and the update succeed, and then the entry holds its bytes. It is Requeue exactly on a Conflict. A marshalling failure is MarshalFailed and any other update failure is that API error. Any non-Done outcome leaves the state unchanged. |
| SecretUtils.StoreOwnEntry | railgun/controllers/configuration/secret_utils.go:103-122 | The finalizer is appended exactly when it is absent and its update succeeds, and it stays on whatever the entry write then answers. A failed finalizer update is an error that changes nothing. A conflicting entry write is a Requeue that leaves the Secret as it was. Only the Ingress's own key can change in the Secret. Done means the finalizer is present and the entry holds the serialised object with that finalizer. A failed entry write reports storeRuntimeObject's error unchanged (MarshalFailed or the update's error), with the finalizer left on. |
| SecretUtils.Admit | railgun/controllers/configuration/secret_utils.go:33-58 | The pass continues past this point only for a managed (or non-Ingress) object, a non-empty namespace and a Secret that was found. An unmanaged Ingress is Done. An empty namespace is a MissingNamespace error. AlreadyExists is a Requeue and any other Secret error is that error, all with no change. The only state change here is the creation of an empty Secret, which ends in Requeue. |
| SecretUtils.StoreIngressObj | railgun/controllers/configuration/secret_utils.go:29-123 | An unmanaged Ingress is Done with no change. An empty namespace is an error with no change. AlreadyExists is a Requeue. A created Secret is a Requeue and nothing else happens in that pass. Other Secret errors are errors. Past the Secret lookup, an unsupported type is an UnsupportedType error with no change. A Service-resolving pass is an error when the Service is missing or its lookup fails, writes that Service's entry on a successful update and nothing else, and is Requeue exactly when the write succeeds or conflicts; a rejected write changes nothing, and the pass is never Done. A pathless pass whose finalizer update fails is that error with no change. Otherwise it puts the finalizer on, is Done exactly when marshalling and the entry write succeed, is Requeue exactly when the entry write conflicts, and leaves the Secret unchanged when not Done. Finalizers only ever gain the missing marker. Done means left alone or fully stored. A failed Service or own-entry write reports MarshalFailed or the update's own error, as storeRuntimeObject returns it. |
| SecretUtils.CleanupObj | railgun/controllers/configuration/secret_utils.go:150-193 | An empty namespace is an error. A missing Secret is Done with no change. A NotFound get is Done with no change; any other get failure is that error. A present key is deleted, and only it, with Requeue. A failed delete update is an error with no change, a Conflict included. Once the key is absent, a present finalizer is filtered out with Requeue when the object update succeeds, and a failed object update is that error; without the finalizer the pass is Done. The finalizer is removed in no other case. A failed pass changes nothing. Done means nothing changed and nothing is left. |
| Passes.PathfulPassLeavesIngress | railgun/controllers/configuration/secret_utils.go:62-101 | One upsert pass over a managed Ingress with a path is never Done. It leaves the Ingress's finalizers and its own entry as they were, given distinct keys. |
| Passes.PathfulIngressNeverStored | railgun/controllers/configuration/secret_utils.go:74-96 | The code as written never completes a managed Ingress with a path, for any sequence of API answers. No run is Done, the finalizer is never added, and the Ingress's own entry never changes. |
| Passes.PathlessIngressConverges | railgun/controllers/configuration/secret_utils.go:103-122 | With every call succeeding, an Ingress with no path is Done within two passes. It then carries the finalizer and its entry holds its bytes. Every other entry is unchanged. |
| Passes.PathlessPassStores | railgun/controllers/configuration/secret_utils.go:103-122 | From an existing Secret, one successful pass over a managed Ingress with no path is Done, with the finalizer on and exactly the Ingress's entry set to its serialised form. |
| Passes.UpsertIdempotent | railgun/controllers/configuration/secret_utils.go:103-122 | A second successful upsert after a Done pass is Done again and changes nothing. |
| Passes.TeardownWithoutEntry | railgun/controllers/configuration/secret_utils.go:174-192 | Once the entry is gone, two successful teardown passes filter the finalizer out and end in Done, changing nothing else. |
| Passes.TeardownCompletes | railgun/controllers/configuration/secret_utils.go:166-192 | With every call succeeding and the Secret present, teardown is Done within three passes. The entry is gone and the finalizer removed. Every other entry and finalizer is kept. |
| Passes.CleanupWithoutSecretKeepsFinalizer | railgun/controllers/configuration/secret_utils.go:161-164 | With no Secret, every teardown run is Done and changes nothing, so the finalizer stays. |
| Passes.IndependentWritesCommute | railgun/controllers/configuration/secret_utils.go:134-144 | Writes of two different keys commute, and each keeps the other's entry. A racing writer's retry on the fresh Secret therefore keeps the winner's entry. |
| IntendedUpsert.AllPaths | railgun/controllers/configuration/secret_utils.go:64-65 | A single rule contributes exactly its own paths, in their order. The list is empty exactly when every rule is pathless, and its head is the path where the as-written loop stops. |
| IntendedUpsert.AllPathsMembers | railgun/controllers/configuration/secret_utils.go:64-65 | A path is listed exactly when some rule holds it. |
| IntendedUpsert.AllPathsAppend | railgun/controllers/configuration/secret_utils.go:64-65 | The listing distributes over concatenation of rules. With the single-rule clause of AllPaths this fixes it: rule order, then path order. |
| IntendedUpsert.ServiceNames | railgun/controllers/configuration/secret_utils.go:62-101 | One Service name per listed path, in the same order: `service.name` in v1, `serviceName` in v1beta1. The first is the one the as-written pass resolves. Unsupported types match those of the as-written switch. |
| IntendedUpsert.StoreServices | railgun/controllers/configuration/secret_utils.go:64-79 | Storing each Service in turn continues exactly when every Service exists, can be serialised, and is answered Ok. Finished or stopped, only Service keys change. A stopped loop is never Done. It is Requeue only on a conflicting write, which changes nothing, and a conflicting write of a ready first Service always stops it with Requeue. A failed lookup is an error that changes nothing. |
| IntendedUpsert.StoreServicesStoresAll | railgun/controllers/configuration/secret_utils.go:64-79 | Given distinct keys, a finished Service loop leaves every named Service stored. |
| IntendedUpsert.StoreIngressObjIntended | railgun/controllers/configuration/secret_utils.go:29-123 | The corrected pass begins exactly as the code as written does, and an unsupported type is the same error. Past that point it requeues only on a conflicting write, and a conflicting write with every other call Ok is a Requeue. A failed Service lookup is an error with no change. Only the Services' entries and the Ingress's own entry are written. Finalizers only gain the marker. Done means left alone, or the Service loop finished and the finalizer and own entry are stored. |
| IntendedUpsert.IntendedPassStoresAll | railgun/controllers/configuration/secret_utils.go:103-122 | With the Secret present and every call succeeding, one corrected pass is Done. Every Service is stored, the finalizer is on, and the Ingress entry holds its bytes. |
| IntendedUpsert.IntendedDoneStoresAll | railgun/controllers/configuration/secret_utils.go:29-123 | For any API answers, given distinct keys, a corrected pass over a managed object that ends in Done has stored every Service its paths name. |
| IntendedUpsert.IntendedUpsertConverges | railgun/controllers/configuration/secret_utils.go:29-123 | With every call succeeding, two corrected passes are Done from any Secret state. Every backend Service is stored, the finalizer is on, and the Ingress entry holds its bytes. |

## Findings

| source | as written | input that shows it | evidently intended | confidence | as-written member | corrected member |
|---|---|---|---|---|---|---|
| railgun/controllers/configuration/secret_utils.go:74-96 | The Service loop discards storeRuntimeObject's requeue flag and returns Requeue right after the first Service. So the finalizer and the Ingress's own entry (lines 103-122) are reached only by an Ingress whose rules have no path. | A managed networking/v1 Ingress with one rule whose one path names an existing Service. The Secret exists and every call succeeds. Every pass rewrites the Service entry and returns Requeue. The finalizer is never added and the Ingress is never stored. | Store every Service and requeue only on a conflicting write, as lines 113-119 do for the Ingress. Then add the finalizer and store the Ingress. The corrected pass writes all Services in one pass, so it drops the bound of one Service write per pass that the code as written keeps. | medium, not executed | Passes.PathfulIngressNeverStored | IntendedUpsert.IntendedUpsertConverges |

## Left out

- `railgun/internal/controller/manager/run.go`, `railgun/pkg/store/store.go`, `internal/util/prometheus.go` and the integration and performance tests are not part of this model: they hold bootstrap, client wrappers, metrics and harnesses, with no reconcile decisions.
- YAML marshalling is the opaque `Env.serialize`, which may fail. Its round trip is not modelled.
- `configsecret.KeyFor`, `isManaged`, `getOrCreateConfigSecret` and the value of the finalizer constant are not part of this model. They are `Env` fields or modelled from their call sites.
- `KeyFor` is taken to depend only on the object's kind and name. Its injectivity is the `KeyInjective` precondition of the lemmas that need it, not an axiom.
- `hasFinalizer` is modelled as membership in the finalizer list.
- `os.Getenv` is the `Env.namespace` parameter. Logging and `ctx` cancellation are not modelled.
- Concurrency between reconcilers is not modelled as threads. A lost race is a Conflict answer, and the Secret read at the start of a pass is the stored one.
- Each pass gets one answer per kind of call. In the corrected pass, every Service lookup and every Secret update of one pass shares that answer.
- IntendedUpsert.StoreIngressObjIntended: writes every Service in a single pass. A correction that keeps the as-written bound of one Service write per pass, and converges over more passes, is not modelled.
- The content of a Service is not modelled: a looked-up Service is determined by its name.
- StoreIngressObj: it requires every rule up to the first rule with a path to have an HTTP section, for the whole pass. The code dereferences `rule.HTTP` only after the managed, namespace and Secret checks, and a nil section there is a Go panic.
- A networking/v1 path whose backend is a resource rather than a Service (a nil `Backend.Service`, another panic) is not modelled. Every v1 path names a Service.
- A Secret whose `Data` map is nil (a panic on assignment at line 136) is not modelled. The Secret's data is always a map.

=== FILE: cluster.dfy ===
/** The slice of the cluster one reconcile pass reads and writes, the
    typed ways each API call can fail, and the collaborators whose code is
    not part of this model. */
module Cluster {
  import opened Objects

  /** The configuration Secret's data: projection key to serialised bytes. */
  type SecretData = map<string, Bytes>

  /** The cluster as one pass sees it: the configuration Secret in the
      control-plane namespace (None when it does not exist), the object
      being reconciled as stored (its finalizers included), and the names of
      the Services that exist. */
  datatype State = State(
    secret: Option<SecretData>,
    target: Object,
    services: set<NamespacedName>)

  /** The typed failures of the API client. */
  datatype ApiError = NotFound | AlreadyExists | Conflict | OtherApiError

  /** What the API server answers to one call. A lost race with another
      writer appears here as a Conflict; it is not modelled as a thread. */
  datatype Reply = Ok | Fail(error: ApiError)

  /** The answer to each kind of call one pass can make. No pass makes two
      calls of the same kind, so one answer per kind suffices. */
  datatype Replies = Replies(
    secretAccess: Reply,   // the get (or get-or-create) of the configuration Secret
    serviceGet: Reply,     // the lookup of a backend Service that exists
    secretUpdate: Reply,   // the update of the configuration Secret
    objectUpdate: Reply)   // the update of the reconciled object

  /** Every call succeeds. */
  const AllOk := Replies(Ok, Ok, Ok, Ok)

  /** Collaborators outside this model, passed in:
      - `namespace`: the control-plane namespace environment variable ("" when unset);
      - `finalizer`: the Kong Ingress finalizer marker;
      - `isManaged`: the annotation test for Ingress objects managed by Kong;
      - `keyFor`: the projection key of an object of a kind under a name;
      - `serialize`: YAML marshalling, None when it fails. */
  datatype Env = Env(
    namespace: string,
    finalizer: string,
    isManaged: map<string, string> -> bool,
    keyFor: (string, NamespacedName) -> string,
    serialize: Object -> Option<Bytes>)

  /** Distinct (kind, name) pairs have distinct projection keys. */
  ghost predicate KeyInjective(keyFor: (string, NamespacedName) -> string)
  {
    forall k1, n1, k2, n2 :: keyFor(k1, n1) == keyFor(k2, n2) ==> k1 == k2 && n1 == n2
  }

  /** Why a pass failed. */
  datatype Error =
    | MissingNamespace               // the namespace environment variable is unset
    | Api(error: ApiError)           // an API call failed
    | ServiceUnavailable(service: NamespacedName, error: ApiError)
    | UnsupportedType(typeName: string)
    | MarshalFailed

  /** The ctrl.Result / error pair a pass returns; the code never returns a
      requeue together with an error. */
  datatype Outcome = Done | Requeue | Failed(error: Error)

  datatype Step = Step(cluster: State, outcome: Outcome)

  /** What getOrCreateConfigSecret reports. */
  datatype SecretLookup =
    | Found(data: SecretData)
    | Created(created: State)
    | LookupFailed(error: ApiError)

  /** Get the configuration Secret, creating it empty when it is absent.
      The reply is that of the get when the Secret exists and that of the
      create when it does not; losing a creation race is an AlreadyExists
      reply. */
  function GetOrCreateConfigSecret(c: State, reply: Reply): (r: SecretLookup)
    ensures r.Found? <==> reply.Ok? && c.secret.Some?
    ensures r.Found? ==> r.data == c.secret.value
    ensures r.Created? ==>
      c.secret.None? && r.created == c.(secret := Some(map[]))
    ensures r.LookupFailed? <==> reply.Fail?
    ensures r.LookupFailed? ==> r.error == reply.error
  {
    if reply.Fail? then LookupFailed(reply.error)
    else if c.secret.Some? then Found(c.secret.value)
    else Created(c.(secret := Some(map[])))
  }

  /** Get the configuration Secret; an absent Secret is a NotFound error. */
  function GetConfigSecret(c: State, reply: Reply): (r: Option<ApiError>)
    ensures r.None? <==> reply.Ok? && c.secret.Some?
    ensures c.secret.None? && reply.Ok? ==> r == Some(NotFound)
    ensures reply.Fail? ==> r == Some(reply.error)
  {
    if reply.Fail? then Some(reply.error)
    else if c.secret.None? then Some(NotFound)
    else None
  }

  /** `after` differs from `before` only in the Secret's entry for `key`:
      the object, the Services, the Secret's existence and every other key
      are untouched. */
  ghost predicate OnlyEntryChanged(before: State, after: State, key: string)
  {
    && after.target == before.target
    && after.services == before.services
    && before.secret.Some? && after.secret.Some?
    && after.secret.value - {key} == before.secret.value - {key}
  }
}

=== FILE: finalizers.dfy ===
/** The finalizer list of a managed Ingress: the membership test, the
    append made on the upsert path and the filter made on teardown. */
module Finalizers {

  /** The marker is on the object. */
  predicate HasFinalizer(fs: seq<string>, marker: string)
  {
    marker in fs
  }

  /** Upsert appends the marker only when it is absent: existing finalizers
      keep their positions and the marker appears exactly once. */
  function EnsureFinalizer(fs: seq<string>, marker: string): (r: seq<string>)
    ensures HasFinalizer(r, marker)
    ensures multiset(r)[marker] == if HasFinalizer(fs, marker) then multiset(fs)[marker] else 1
    ensures |r| >= |fs| && r[..|fs|] == fs
    ensures forall x :: x != marker ==> multiset(r)[x] == multiset(fs)[x]
  {
    if HasFinalizer(fs, marker) then fs else fs + [marker]
  }

  /** Teardown keeps every finalizer other than the marker, in order. */
  function RemoveFinalizer(fs: seq<string>, marker: string): (r: seq<string>)
    ensures !HasFinalizer(r, marker)
    ensures multiset(r) == multiset(fs)[marker := 0]
    ensures |r| <= |fs|
  {
    if |fs| == 0 then []
    else
      assert fs == [fs[0]] + fs[1..];
      if fs[0] == marker then RemoveFinalizer(fs[1..], marker)
      else [fs[0]] + RemoveFinalizer(fs[1..], marker)
  }

  /** The filter distributes over concatenation, so the relative order of
      the kept finalizers is the order they had. */
  lemma {:induction false} RemoveFinalizerAppend(a: seq<string>, b: seq<string>, marker: string)
    ensures RemoveFinalizer(a + b, marker) == RemoveFinalizer(a, marker) + RemoveFinalizer(b, marker)
    decreases |a|
  {
    if |a| == 0 {
      assert a + b == b;
    } else {
      assert (a + b)[1..] == a[1..] + b;
      RemoveFinalizerAppend(a[1..], b, marker);
    }
  }

  /** One more element at the end is kept exactly when it is not the marker. */
  lemma RemoveFinalizerSnoc(fs: seq<string>, x: string, marker: string)
    ensures RemoveFinalizer(fs + [x], marker)
         == RemoveFinalizer(fs, marker) + (if x == marker then [] else [x])
  {
    RemoveFinalizerAppend(fs, [x], marker);
    assert [x][1..] == [];
  }

  /** The filter of a prefix one element longer: the loop's step. */
  lemma RemoveFinalizerPrefixStep(fs: seq<string>, i: nat, marker: string)
    requires i < |fs|
    ensures RemoveFinalizer(fs[..i + 1], marker)
         == RemoveFinalizer(fs[..i], marker) + (if fs[i] == marker then [] else [fs[i]])
  {
    assert fs[..i + 1] == fs[..i] + [fs[i]];
    RemoveFinalizerSnoc(fs[..i], fs[i], marker);
  }

  /** Removing a marker that is absent changes nothing. */
  lemma {:induction false} RemoveAbsentFinalizer(fs: seq<string>, marker: string)
    requires !HasFinalizer(fs, marker)
    ensures RemoveFinalizer(fs, marker) == fs
    decreases |fs|
  {
    if |fs| > 0 {
      assert fs == [fs[0]] + fs[1..];
      RemoveAbsentFinalizer(fs[1..], marker);
    }
  }

  /** Finalizer symmetry: teardown undoes the upsert's append exactly. */
  lemma RemoveUndoesEnsure(fs: seq<string>, marker: string)
    requires !HasFinalizer(fs, marker)
    ensures RemoveFinalizer(EnsureFinalizer(fs, marker), marker) == fs
  {
    RemoveFinalizerAppend(fs, [marker], marker);
    RemoveAbsentFinalizer(fs, marker);
  }

  /** The loop of the teardown path: build a fresh list holding every
      finalizer that is not the marker. */
  method FilterFinalizers(fs: seq<string>, marker: string) returns (kept: seq<string>)
    ensures kept == RemoveFinalizer(fs, marker)
  {
    kept := [];
    var i := 0;
    while i < |fs|
      invariant 0 <= i <= |fs|
      invariant kept == RemoveFinalizer(fs[..i], marker)
    {
      RemoveFinalizerPrefixStep(fs, i, marker);
      if fs[i] != marker {
        kept := kept + [fs[i]];
      }
      i := i + 1;
    }
    assert fs[..i] == fs;
  }
}

=== FILE: intended_upsert.dfy ===
/** The upsert pass as its structure evidently intends it: every backend
    Service is stored, a conflicting write asks for a requeue (the flag the
    Service loop discards), and a pass whose Service writes all succeed goes
    on to the finalizer and the Ingress's own entry. Compare StoreIngressObj,
    which returns Requeue after the first Service whatever happens. */
module IntendedUpsert {
  import opened Objects
  import opened Cluster
  import opened Finalizers
  import opened SecretUtils

  /** Every rule has an HTTP section (the loops now visit every rule). */
  predicate AllHttp<P>(rules: seq<Rule<P>>)
  {
    forall i :: 0 <= i < |rules| ==> rules[i].http.Some?
  }

  /** The paths of all rules, in rule order then path order. Its head is
      the path the as-written loop stops at. */
  function AllPaths<P(!new)>(rules: seq<Rule<P>>): (ps: seq<P>)
    requires AllHttp(rules)
    ensures HttpReachable(rules)
    ensures |ps| == 0 <==> FirstPath(rules).None?
    ensures |ps| > 0 ==> ps[0] == FirstPath(rules).value
    // a single rule contributes exactly its own paths, in their order
    ensures |rules| == 1 ==> ps == rules[0].http.value
    decreases |rules|
  {
    if |rules| == 0 then []
    else
      AllHttpTail(rules);
      rules[0].http.value + AllPaths(rules[1..])
  }

  /** Dropping the first rule keeps every rule with an HTTP section. */
  lemma AllHttpTail<P>(rules: seq<Rule<P>>)
    requires AllHttp(rules) && |rules| > 0
    ensures AllHttp(rules[1..])
  {
    forall i | 0 <= i < |rules| - 1 ensures rules[1..][i].http.Some? {
      assert rules[1..][i] == rules[i + 1];
    }
  }

  /** Every path of every rule is listed, and nothing else. */
  lemma {:induction false} AllPathsMembers<P(!new)>(rules: seq<Rule<P>>)
    requires AllHttp(rules)
    ensures forall p :: p in AllPaths(rules) <==> exists i :: 0 <= i < |rules| && p in rules[i].http.value
    decreases |rules|
  {
    if |rules| > 0 {
      AllHttpTail(rules);
      AllPathsMembers(rules[1..]);
      var rest := AllPaths(rules[1..]);
      assert AllPaths(rules) == rules[0].http.value + rest;
      forall p ensures p in rest ==> exists i :: 0 <= i < |rules| && p in rules[i].http.value {
        if p in rest {
          var j :| 0 <= j < |rules| - 1 && p in rules[1..][j].http.value;
          assert p in rules[j + 1].http.value;
        }
      }
      forall p, i | 1 <= i < |rules| && p in rules[i].http.value ensures p in rest {
        assert p in rules[1..][i - 1].http.value;
      }
    }
  }

  /** The paths of a rule list split at any point are those of the first
      part followed by those of the second: the order is rule order. */
  lemma {:induction false} AllPathsAppend<P(!new)>(a: seq<Rule<P>>, b: seq<Rule<P>>)
    requires AllHttp(a) && AllHttp(b)
    ensures AllHttp(a + b)
    ensures AllPaths(a + b) == AllPaths(a) + AllPaths(b)
    decreases |a|
  {
    assert AllHttp(a + b) by {
      forall i | 0 <= i < |a + b| ensures (a + b)[i].http.Some? {
        if i < |a| { assert (a + b)[i] == a[i]; } else { assert (a + b)[i] == b[i - |a|]; }
      }
    }
    if |a| > 0 {
      assert (a + b)[1..] == a[1..] + b;
      assert AllHttp(a[1..]) by {
        forall i | 0 <= i < |a| - 1 ensures a[1..][i].http.Some? { assert a[1..][i] == a[i + 1]; }
      }
      AllPathsAppend(a[1..], b);
    } else {
      assert a + b == b;
    }
  }

  predicate FullyDereferenceable(s: Shape)
  {
    match s
    case IngressV1(rules) => AllHttp(rules)
    case IngressV1Beta1(rules) => AllHttp(rules)
    case _ => true
  }

  /** The Services an object's paths name, or the unsupported type. */
  datatype Backends = Names(names: seq<string>) | Unsupported(typeName: string)

  function ServiceNames(s: Shape): (r: Backends)
    requires FullyDereferenceable(s)
    ensures Dereferenceable(s)
    ensures r.Unsupported? <==> ResolveFirstService(s).UnsupportedShape?
    ensures r.Names? ==> (|r.names| == 0 <==> ResolveFirstService(s).NoPath?)
    ensures r.Names? && |r.names| > 0 ==> r.names[0] == ResolveFirstService(s).serviceName
    // one name per path, in path order
    ensures s.IngressV1? ==>
      && r.Names? && |r.names| == |AllPaths(s.rulesV1)|
      && forall i :: 0 <= i < |r.names| ==> r.names[i] == AllPaths(s.rulesV1)[i].service.name
    ensures s.IngressV1Beta1? ==>
      && r.Names? && |r.names| == |AllPaths(s.rulesV1Beta1)|
      && forall i :: 0 <= i < |r.names| ==> r.names[i] == AllPaths(s.rulesV1Beta1)[i].serviceName
  {
    match s
    case IngressV1(rules) =>
      var ps := AllPaths(rules);
      Names(seq(|ps|, i requires 0 <= i < |ps| => ps[i].service.name))
    case IngressV1Beta1(rules) =>
      var ps := AllPaths(rules);
      Names(seq(|ps|, i requires 0 <= i < |ps| => ps[i].serviceName))
    case ServiceShape => Unsupported("*v1.Service")
    case OtherShape(t) => Unsupported(t)
  }

  /** The projection keys of the named Services. */
  function ServiceKeys(env: Env, ns: string, names: seq<string>): set<string>
  {
    set i | 0 <= i < |names| :: env.keyFor(ServiceKind, NamespacedName(ns, names[i]))
  }

  /** The entry of Service `name` holds its serialised form. */
  ghost predicate ServiceStored(env: Env, c: State, ns: string, name: string)
  {
    var svc := NamespacedName(ns, name);
    && c.secret.Some?
    && env.keyFor(ServiceKind, svc) in c.secret.value
    && env.serialize(ServiceObject(svc)) == Some(c.secret.value[env.keyFor(ServiceKind, svc)])
  }

  /** Every named Service exists, can be serialised, and is answered Ok. */
  ghost predicate ServicesReady(env: Env, c: State, ns: string, names: seq<string>)
  {
    forall i :: 0 <= i < |names| ==>
      NamespacedName(ns, names[i]) in c.services && env.serialize(ServiceObject(NamespacedName(ns, names[i]))).Some?
  }

  /** Either the Service loop finished, or the pass ends with `step`. */
  datatype Progress = Continue(cluster: State) | Stop(step: Step)

  /** Look up and store each named Service in turn, stopping at the first
      failure (an error) or conflict (a requeue). */
  function StoreServices(env: Env, c: State, ns: string, names: seq<string>, rs: Replies): (r: Progress)
    requires c.secret.Some?
    ensures r.Continue? ==>
      && r.cluster.target == c.target && r.cluster.services == c.services
      && r.cluster.secret.Some?
      && r.cluster.secret.value - ServiceKeys(env, ns, names) == c.secret.value - ServiceKeys(env, ns, names)
    ensures r.Stop? ==>
      && r.step.outcome != Done
      && r.step.cluster.target == c.target && r.step.cluster.services == c.services
      && r.step.cluster.secret.Some?
      && r.step.cluster.secret.value - ServiceKeys(env, ns, names) == c.secret.value - ServiceKeys(env, ns, names)
    ensures r.Continue? <==>
      ServicesReady(env, c, ns, names) && (|names| == 0 || (rs.serviceGet.Ok? && rs.secretUpdate.Ok?))
    // a stop is a requeue only on a conflicting write, which changes nothing ...
    ensures r.Stop? && r.step.outcome == Requeue ==> rs.secretUpdate == Fail(Conflict) && r.step.cluster == c
    // ... and a conflicting write of a ready Service is always one
    ensures (&& |names| > 0 && rs.serviceGet.Ok? && rs.secretUpdate == Fail(Conflict)
             && NamespacedName(ns, names[0]) in c.services
             && env.serialize(ServiceObject(NamespacedName(ns, names[0]))).Some?) ==>
      r == Stop(Step(c, Requeue))
    // a failed lookup is an error that changes nothing
    ensures |names| > 0 && rs.serviceGet.Fail? ==> r.Stop? && r.step.outcome.Failed? && r.step.cluster == c
    decreases |names|
  {
    if |names| == 0 then Continue(c)
    else
      var svc := NamespacedName(ns, names[0]);
      if svc !in c.services then Stop(Step(c, Failed(ServiceUnavailable(svc, NotFound))))
      else if rs.serviceGet.Fail? then Stop(Step(c, Failed(ServiceUnavailable(svc, rs.serviceGet.error))))
      else
        var s := StoreRuntimeObject(env, c, ServiceObject(svc), svc, rs.secretUpdate);
        if s.err.Some? then Stop(Step(s.cluster, Failed(s.err.value)))
        else if s.requeue then Stop(Step(s.cluster, Requeue))
        else
          var rest := StoreServices(env, s.cluster, ns, names[1..], rs);
          assert ServiceKeys(env, ns, names)
              == {env.keyFor(ServiceKind, svc)} + ServiceKeys(env, ns, names[1..]) by {
            assert forall i :: 1 <= i < |names| ==> names[1..][i - 1] == names[i];
          }
          assert ServicesReady(env, c, ns, names) <==>
            env.serialize(ServiceObject(svc)).Some? && ServicesReady(env, s.cluster, ns, names[1..]) by {
            assert forall i :: 1 <= i < |names| ==> names[1..][i - 1] == names[i];
          }
          if rest.Continue? then
            EntriesOutsideUnion(c.secret.value, s.cluster.secret.value, rest.cluster.secret.value,
                                {env.keyFor(ServiceKind, svc)}, ServiceKeys(env, ns, names[1..]));
            rest
          else
            EntriesOutsideUnion(c.secret.value, s.cluster.secret.value, rest.step.cluster.secret.value,
                                {env.keyFor(ServiceKind, svc)}, ServiceKeys(env, ns, names[1..]));
            rest
  }

  /** Two writes, the first keeping every entry outside `k1` and the
      second every entry outside `k2`, keep every entry outside both. */
  lemma EntriesOutsideUnion(a: SecretData, b: SecretData, d: SecretData, k1: set<string>, k2: set<string>)
    requires b - k1 == a - k1
    requires d - k2 == b - k2
    ensures d - (k1 + k2) == a - (k1 + k2)
  {
    assert d - (k1 + k2) == (d - k2) - k1;
    assert b - (k1 + k2) == (b - k2) - k1;
    assert b - (k1 + k2) == (b - k1) - k2;
    assert a - (k1 + k2) == (a - k1) - k2;
  }

  /** With distinct keys, a finished Service loop leaves every named Service
      stored. */
  lemma {:induction false} StoreServicesStoresAll(
    env: Env, c: State, ns: string, names: seq<string>, rs: Replies)
    requires c.secret.Some? && KeyInjective(env.keyFor)
    requires StoreServices(env, c, ns, names, rs).Continue?
    ensures forall i :: 0 <= i < |names| ==>
      ServiceStored(env, StoreServices(env, c, ns, names, rs).cluster, ns, names[i])
    decreases |names|
  {
    if |names| > 0 {
      var svc := NamespacedName(ns, names[0]);
      var s := StoreRuntimeObject(env, c, ServiceObject(svc), svc, rs.secretUpdate);
      var r := StoreServices(env, s.cluster, ns, names[1..], rs);
      assert r == StoreServices(env, c, ns, names, rs);
      StoreServicesStoresAll(env, s.cluster, ns, names[1..], rs);
      forall i | 0 <= i < |names|
        ensures ServiceStored(env, r.cluster, ns, names[i])
      {
        if i > 0 {
          assert names[i] == names[1..][i - 1];
        } else if env.keyFor(ServiceKind, svc) in ServiceKeys(env, ns, names[1..]) {
          var j :| 0 <= j < |names| - 1 && env.keyFor(ServiceKind, svc) == env.keyFor(ServiceKind, NamespacedName(ns, names[1..][j]));
          assert names[1..][j] == names[0];
          assert ServiceStored(env, r.cluster, ns, names[1..][j]);
        } else {
          var k := env.keyFor(ServiceKind, svc);
          assert k in s.cluster.secret.value - ServiceKeys(env, ns, names[1..]);
          assert (r.cluster.secret.value - ServiceKeys(env, ns, names[1..]))[k]
              == (s.cluster.secret.value - ServiceKeys(env, ns, names[1..]))[k];
        }
      }
    }
  }

  /** One upsert pass with every backend Service stored before the
      finalizer and the Ingress's own entry. */
  function StoreIngressObjIntended(env: Env, c: State, nsn: NamespacedName, rs: Replies): (r: Step)
    requires FullyDereferenceable(c.target.shape)
    ensures r.cluster.services == c.services
    ensures r.cluster.target == c.target.WithFinalizers(r.cluster.target.meta.finalizers)
    ensures r.cluster.target != c.target ==>
      r.cluster.target.meta.finalizers == c.target.meta.finalizers + [env.finalizer]
    // the part before the type switch is that of the code as written
    ensures Admit(env, c, rs).Some? ==> r == Admit(env, c, rs).value
    ensures Admit(env, c, rs).None? && ServiceNames(c.target.shape).Unsupported? ==>
      r == Step(c, Failed(UnsupportedType(ServiceNames(c.target.shape).typeName)))
    // past the type switch, a requeue comes only from a conflicting write ...
    ensures Admit(env, c, rs).None? && r.outcome == Requeue ==> rs.secretUpdate == Fail(Conflict)
    // ... and a conflicting write, with everything else answered Ok, is one
    ensures (&& Admit(env, c, rs).None? && ServiceNames(c.target.shape).Names?
             && ServicesReady(env, c, c.target.meta.namespace, ServiceNames(c.target.shape).names)
             && env.serialize(Marked(env, c.target)).Some?
             && rs.serviceGet.Ok? && rs.objectUpdate.Ok? && rs.secretUpdate == Fail(Conflict)) ==>
      r.outcome == Requeue
    // a failed Service lookup is an error that changes nothing
    ensures (&& Admit(env, c, rs).None? && ServiceNames(c.target.shape).Names?
             && |ServiceNames(c.target.shape).names| > 0 && rs.serviceGet.Fail?) ==>
      r.outcome.Failed? && r.cluster == c
    // only the Services' entries and the object's own entry are written
    ensures Admit(env, c, rs).None? && ServiceNames(c.target.shape).Names? ==>
      var written := ServiceKeys(env, c.target.meta.namespace, ServiceNames(c.target.shape).names)
                     + {env.keyFor(c.target.kind, nsn)};
      && r.cluster.secret.Some?
      && r.cluster.secret.value - written == c.secret.value - written
    // Done: left alone, or fully stored
    ensures r.outcome == Done ==>
      || (Unmanaged(env, c.target) && r.cluster == c)
      || (&& ServiceNames(c.target.shape).Names? && c.secret.Some?
          && StoreServices(env, c, c.target.meta.namespace, ServiceNames(c.target.shape).names, rs).Continue?
          && HasFinalizer(r.cluster.target.meta.finalizers, env.finalizer)
          && r.cluster.secret.Some?
          && env.keyFor(c.target.kind, nsn) in r.cluster.secret.value
          && env.serialize(r.cluster.target) == Some(r.cluster.secret.value[env.keyFor(c.target.kind, nsn)]))
  {
    match Admit(env, c, rs)
    case Some(ended) => ended
    case None =>
      match ServiceNames(c.target.shape)
      case Unsupported(t) => Step(c, Failed(UnsupportedType(t)))
      case Names(names) =>
        var keys := ServiceKeys(env, c.target.meta.namespace, names);
        var own := env.keyFor(c.target.kind, nsn);
        match StoreServices(env, c, c.target.meta.namespace, names, rs)
        case Stop(step) =>
          EntriesOutsideUnion(c.secret.value, step.cluster.secret.value, step.cluster.secret.value, keys, {own});
          step
        case Continue(stored) =>
          var r := StoreOwnEntry(env, stored, nsn, rs);
          EntriesOutsideUnion(c.secret.value, stored.secret.value, r.cluster.secret.value, keys, {own});
          r
  }

  /** Intended upsert passes, one per script entry, while each asks for a requeue. */
  function RunIntended(env: Env, c: State, nsn: NamespacedName, script: seq<Replies>): (r: Step)
    requires FullyDereferenceable(c.target.shape)
    ensures r.cluster.services == c.services
    decreases |script|
  {
    if |script| == 0 then Step(c, Requeue)
    else
      var s := StoreIngressObjIntended(env, c, nsn, script[0]);
      if s.outcome == Requeue then RunIntended(env, s.cluster, nsn, script[1..]) else s
  }

  /** A managed Ingress is fully stored once every call succeeds: from a
      Secret that exists, a single intended pass ends in Done with every
      backend Service stored, the finalizer on the Ingress, and the
      Ingress's own entry holding its serialised form. */
  lemma IntendedPassStoresAll(env: Env, c: State, nsn: NamespacedName)
    requires FullyDereferenceable(c.target.shape) && ServiceNames(c.target.shape).Names?
    requires !Unmanaged(env, c.target) && env.namespace != "" && c.secret.Some?
    requires c.target.kind != ServiceKind && KeyInjective(env.keyFor)
    requires ServicesReady(env, c, c.target.meta.namespace, ServiceNames(c.target.shape).names)
    requires env.serialize(Marked(env, c.target)).Some?
    ensures
      var r := StoreIngressObjIntended(env, c, nsn, AllOk);
      var names := ServiceNames(c.target.shape).names;
      && r.outcome == Done
      && r.cluster.target == Marked(env, c.target)
      && r.cluster.secret.Some?
      && env.keyFor(c.target.kind, nsn) in r.cluster.secret.value
      && r.cluster.secret.value[env.keyFor(c.target.kind, nsn)] == env.serialize(Marked(env, c.target)).value
      && forall i :: 0 <= i < |names| ==> ServiceStored(env, r.cluster, c.target.meta.namespace, names[i])
  {
    var ns := c.target.meta.namespace;
    var names := ServiceNames(c.target.shape).names;
    assert Admit(env, c, AllOk).None?;
    var p := StoreServices(env, c, ns, names, AllOk);
    assert p.Continue?;
    StoreServicesStoresAll(env, c, ns, names, AllOk);
    var stored := p.cluster;
    var r := StoreOwnEntry(env, stored, nsn, AllOk);
    assert r == StoreIngressObjIntended(env, c, nsn, AllOk);
    var own := env.keyFor(c.target.kind, nsn);
    if HasFinalizer(c.target.meta.finalizers, env.finalizer) {
      assert Marked(env, c.target) == c.target;
    }
    forall i | 0 <= i < |names| ensures env.keyFor(ServiceKind, NamespacedName(ns, names[i])) != own {
    }
    StoredSurvives(env, stored, r.cluster, ns, names, own);
  }

  /** A write that keeps every entry but `own` keeps every stored Service
      whose key is not `own`. */
  lemma StoredSurvives(env: Env, a: State, b: State, ns: string, names: seq<string>, own: string)
    requires a.secret.Some? && b.secret.Some?
    requires b.secret.value - {own} == a.secret.value - {own}
    requires forall i :: 0 <= i < |names| ==> env.keyFor(ServiceKind, NamespacedName(ns, names[i])) != own
    requires forall i :: 0 <= i < |names| ==> ServiceStored(env, a, ns, names[i])
    ensures forall i :: 0 <= i < |names| ==> ServiceStored(env, b, ns, names[i])
  {
    forall i | 0 <= i < |names|
      ensures ServiceStored(env, b, ns, names[i])
    {
      var k := env.keyFor(ServiceKind, NamespacedName(ns, names[i]));
      assert (b.secret.value - {own})[k] == (a.secret.value - {own})[k];
    }
  }

  /** Whatever the API server answers, a corrected pass over a managed
      object that ends in Done has stored every Service its paths name. */
  lemma IntendedDoneStoresAll(env: Env, c: State, nsn: NamespacedName, rs: Replies)
    requires FullyDereferenceable(c.target.shape)
    requires !Unmanaged(env, c.target) && c.target.kind != ServiceKind && KeyInjective(env.keyFor)
    requires StoreIngressObjIntended(env, c, nsn, rs).outcome == Done
    ensures ServiceNames(c.target.shape).Names?
    ensures forall i :: 0 <= i < |ServiceNames(c.target.shape).names| ==>
      ServiceStored(env, StoreIngressObjIntended(env, c, nsn, rs).cluster,
                    c.target.meta.namespace, ServiceNames(c.target.shape).names[i])
  {
    var ns := c.target.meta.namespace;
    var names := ServiceNames(c.target.shape).names;
    var r := StoreIngressObjIntended(env, c, nsn, rs);
    var p := StoreServices(env, c, ns, names, rs);
    StoreServicesStoresAll(env, c, ns, names, rs);
    assert Admit(env, c, rs).None?;
    assert r == StoreOwnEntry(env, p.cluster, nsn, rs);
    var own := env.keyFor(c.target.kind, nsn);
    forall i | 0 <= i < |names| ensures env.keyFor(ServiceKind, NamespacedName(ns, names[i])) != own {
    }
    StoredSurvives(env, p.cluster, r.cluster, ns, names, own);
  }

  /** The intended pass converges: within two passes once every call
      succeeds (the first may only create the Secret) the run ends in Done
      with every backend Service, the finalizer and the Ingress stored. */
  lemma IntendedUpsertConverges(env: Env, c: State, nsn: NamespacedName, script: seq<Replies>)
    requires FullyDereferenceable(c.target.shape) && ServiceNames(c.target.shape).Names?
    requires !Unmanaged(env, c.target) && env.namespace != ""
    requires c.target.kind != ServiceKind && KeyInjective(env.keyFor)
    requires ServicesReady(env, c, c.target.meta.namespace, ServiceNames(c.target.shape).names)
    requires env.serialize(Marked(env, c.target)).Some?
    requires |script| >= 2 && script[0] == AllOk && script[1] == AllOk
    ensures
      var r := RunIntended(env, c, nsn, script);
      && r.outcome == Done
      && r.cluster.target == Marked(env, c.target)
      && r.cluster.secret.Some?
      && env.keyFor(c.target.kind, nsn) in r.cluster.secret.value
      && r.cluster.secret.value[env.keyFor(c.target.kind, nsn)] == env.serialize(Marked(env, c.target)).value
      && forall i :: 0 <= i < |ServiceNames(c.target.shape).names| ==>
           ServiceStored(env, r.cluster, c.target.meta.namespace, ServiceNames(c.target.shape).names[i])
  {
    if c.secret.None? {
      var c1 := c.(secret := Some(map[]));
      assert StoreIngressObjIntended(env, c, nsn, AllOk) == Step(c1, Requeue);
      assert ServicesReady(env, c1, c.target.meta.namespace, ServiceNames(c.target.shape).names);
      IntendedPassStoresAll(env, c1, nsn);
      assert script[1..][0] == AllOk;
    } else {
      IntendedPassStoresAll(env, c, nsn);
    }
  }
}

=== FILE: objects.dfy ===
/** Kubernetes objects as the configuration reconciler sees them: the
    Ingress being reconciled (in its two supported API versions), the
    Services its paths refer to, and the resolver that picks the first
    backend Service an Ingress names. */
module Objects {

  datatype Option<+T> = None | Some(value: T)

  newtype byte = b: int | 0 <= b < 256

  /** Serialised bytes of an object, as stored in the configuration Secret. */
  type Bytes = seq<byte>

  /** A namespace-scoped object name (types.NamespacedName). */
  datatype NamespacedName = NamespacedName(namespace: string, name: string)

  datatype Meta = Meta(
    namespace: string,
    name: string,
    annotations: map<string, string>,
    finalizers: seq<string>)

  /** networking/v1: a path names its backend through a structured reference. */
  datatype ServiceBackend = ServiceBackend(name: string)
  datatype PathV1 = PathV1(service: ServiceBackend)

  /** networking/v1beta1: a path names its backend by a flat service name. */
  datatype PathV1Beta1 = PathV1Beta1(serviceName: string)

  /** An Ingress rule; `http` is None when the rule carries no HTTP section. */
  datatype Rule<P> = Rule(http: Option<seq<P>>)

  /** The Go type behind a client.Object. */
  datatype Shape =
    | IngressV1(rulesV1: seq<Rule<PathV1>>)
    | IngressV1Beta1(rulesV1Beta1: seq<Rule<PathV1Beta1>>)
    | ServiceShape
    | OtherShape(typeName: string)

  /** An object: its GroupVersionKind kind string, metadata and typed body. */
  datatype Object = Object(kind: string, meta: Meta, shape: Shape)
  {
    function WithFinalizers(fs: seq<string>): (o: Object)
      ensures o.meta.finalizers == fs
      ensures o.kind == kind && o.shape == shape
      ensures o.meta.(finalizers := meta.finalizers) == meta
    {
      this.(meta := meta.(finalizers := fs))
    }
  }

  const IngressKind := "Ingress"
  const ServiceKind := "Service"

  /** The Service object a successful lookup of `nsn` yields. */
  function ServiceObject(nsn: NamespacedName): Object
  {
    Object(ServiceKind, Meta(nsn.namespace, nsn.name, map[], []), ServiceShape)
  }

  /** True when rule `i` has an HTTP section with no paths. */
  ghost predicate Pathless<P>(rules: seq<Rule<P>>, i: int)
    requires 0 <= i < |rules|
  {
    rules[i].http.Some? && |rules[i].http.value| == 0
  }

  /** Every rule before index `n` has an HTTP section and no paths. */
  ghost predicate PathlessBefore<P>(rules: seq<Rule<P>>, n: int)
    requires 0 <= n <= |rules|
  {
    forall j :: 0 <= j < n ==> Pathless(rules, j)
  }

  /** The nested range loops dereference `rule.HTTP` of every rule they
      visit, and they stop at the first path: so the HTTP section must be
      present on every rule up to and including the first rule with a path. */
  predicate HttpReachable<P>(rules: seq<Rule<P>>)
  {
    |rules| == 0 ||
    (rules[0].http.Some? && (|rules[0].http.value| > 0 || HttpReachable(rules[1..])))
  }

  /** The first path of the first rule that has one, as the nested range
      loops meet it. */
  function FirstPath<P>(rules: seq<Rule<P>>): (r: Option<P>)
    requires HttpReachable(rules)
    ensures r.None? <==> PathlessBefore(rules, |rules|)
    ensures r.Some? ==>
      exists i :: 0 <= i < |rules| && PathlessBefore(rules, i)
        && rules[i].http.Some? && |rules[i].http.value| > 0
        && r.value == rules[i].http.value[0]
    decreases |rules|
  {
    if |rules| == 0 then None
    else if |rules[0].http.value| > 0 then
      assert PathlessBefore(rules, 0) && !Pathless(rules, 0);
      Some(rules[0].http.value[0])
    else
      var rest := FirstPath(rules[1..]);
      PathlessShift(rules);
      rest
  }

  /** Dropping a pathless head rule shifts every index by one. */
  lemma PathlessShift<P>(rules: seq<Rule<P>>)
    requires |rules| > 0 && Pathless(rules, 0)
    ensures PathlessBefore(rules, |rules|) <==> PathlessBefore(rules[1..], |rules| - 1)
    ensures forall i :: 0 <= i < |rules| - 1 && PathlessBefore(rules[1..], i) ==> PathlessBefore(rules, i + 1)
  {
    assert forall j :: 1 <= j < |rules| ==> (Pathless(rules, j) <==> Pathless(rules[1..], j - 1));
    if PathlessBefore(rules[1..], |rules| - 1) {
      forall j | 0 <= j < |rules|
        ensures Pathless(rules, j)
      {
        if j > 0 {
          assert Pathless(rules[1..], j - 1);
        }
      }
    }
    if PathlessBefore(rules, |rules|) {
      forall j | 0 <= j < |rules| - 1
        ensures Pathless(rules[1..], j)
      {
        assert Pathless(rules, j + 1);
      }
    }
  }

  /** What the type switch over the object decides about backend Services. */
  datatype Resolution =
    | NoPath                          // no rule has a path
    | ServicePath(serviceName: string) // the first path's backend Service
    | UnsupportedShape(typeName: string)

  /** The object's shape may be inspected by the type switch without a nil
      dereference. */
  predicate Dereferenceable(s: Shape)
  {
    match s
    case IngressV1(rules) => HttpReachable(rules)
    case IngressV1Beta1(rules) => HttpReachable(rules)
    case _ => true
  }

  /** Both Ingress versions resolve their first path to the Service it
      names; every other type is unsupported. */
  function ResolveFirstService(s: Shape): (r: Resolution)
    requires Dereferenceable(s)
    ensures r.UnsupportedShape? <==> !(s.IngressV1? || s.IngressV1Beta1?)
    ensures s.IngressV1? ==>
      (r.NoPath? <==> PathlessBefore(s.rulesV1, |s.rulesV1|))
    ensures s.IngressV1Beta1? ==>
      (r.NoPath? <==> PathlessBefore(s.rulesV1Beta1, |s.rulesV1Beta1|))
    ensures s.IngressV1? && r.ServicePath? ==>
      exists i :: 0 <= i < |s.rulesV1| && PathlessBefore(s.rulesV1, i)
        && s.rulesV1[i].http.Some? && |s.rulesV1[i].http.value| > 0
        && r.serviceName == s.rulesV1[i].http.value[0].service.name
    ensures s.IngressV1Beta1? && r.ServicePath? ==>
      exists i :: 0 <= i < |s.rulesV1Beta1| && PathlessBefore(s.rulesV1Beta1, i)
        && s.rulesV1Beta1[i].http.Some? && |s.rulesV1Beta1[i].http.value| > 0
        && r.serviceName == s.rulesV1Beta1[i].http.value[0].serviceName
  {
    match s
    case IngressV1(rules) =>
      (match FirstPath(rules)
       case None => NoPath
       case Some(p) => ServicePath(p.service.name))
    case IngressV1Beta1(rules) =>
      (match FirstPath(rules)
       case None => NoPath
       case Some(p) => ServicePath(p.serviceName))
    case ServiceShape => UnsupportedShape("*v1.Service")
    case OtherShape(t) => UnsupportedShape(t)
  }
}

=== FILE: passes.dfy ===
/** Runs of several reconcile passes, each fed the API replies of one
    entry of a script, continuing while the previous pass asked for a
    requeue. What the passes promise over time is stated here. */
module Passes {
  import opened Objects
  import opened Cluster
  import opened Finalizers
  import opened SecretUtils

  /** Upsert passes, one per script entry, while each asks for a requeue.
      A run that exhausts its script is reported as Requeue. */
  function RunUpsert(env: Env, c: State, nsn: NamespacedName, script: seq<Replies>): (r: Step)
    requires Dereferenceable(c.target.shape)
    ensures r.cluster.services == c.services
    ensures r.cluster.target == c.target.WithFinalizers(r.cluster.target.meta.finalizers)
    decreases |script|
  {
    if |script| == 0 then Step(c, Requeue)
    else
      var s := StoreIngressObj(env, c, nsn, script[0]);
      if s.outcome == Requeue then RunUpsert(env, s.cluster, nsn, script[1..]) else s
  }

  /** Teardown passes, one per script entry, while each asks for a requeue. */
  function RunCleanup(env: Env, c: State, nsn: NamespacedName, script: seq<Replies>): (r: Step)
    ensures r.cluster.services == c.services
    ensures r.cluster.target == c.target.WithFinalizers(r.cluster.target.meta.finalizers)
    decreases |script|
  {
    if |script| == 0 then Step(c, Requeue)
    else
      var s := CleanupObj(env, c, nsn, script[0]);
      if s.outcome == Requeue then RunCleanup(env, s.cluster, nsn, script[1..]) else s
  }

  /** A script in which every call succeeds. */
  function Calm(n: nat): (script: seq<Replies>)
    ensures |script| == n && forall i :: 0 <= i < n ==> script[i] == AllOk
  {
    seq(n, _ => AllOk)
  }

  /** Dropping the first pass of a calm script leaves a calm script. */
  lemma CalmTail(n: nat)
    requires n > 0
    ensures Calm(n)[0] == AllOk && Calm(n)[1..] == Calm(n - 1)
  {
  }

  /** The reconciled object's own entry in the Secret, if any. */
  function OwnEntry(env: Env, c: State, nsn: NamespacedName): Option<Bytes>
  {
    var key := env.keyFor(c.target.kind, nsn);
    if c.secret.Some? && key in c.secret.value then Some(c.secret.value[key]) else None
  }

  /** One upsert pass over a managed Ingress with a path never touches the
      Ingress's finalizers or its own entry: the only write it can make is
      to the entry of a Service, whose key differs from the Ingress's. */
  lemma PathfulPassLeavesIngress(env: Env, c: State, nsn: NamespacedName, rs: Replies)
    requires Dereferenceable(c.target.shape)
    requires ResolveFirstService(c.target.shape).ServicePath?
    requires !Unmanaged(env, c.target) && c.target.kind != ServiceKind
    requires KeyInjective(env.keyFor)
    ensures StoreIngressObj(env, c, nsn, rs).outcome != Done
    ensures StoreIngressObj(env, c, nsn, rs).cluster.target == c.target
    ensures OwnEntry(env, StoreIngressObj(env, c, nsn, rs).cluster, nsn) == OwnEntry(env, c, nsn)
  {
  }

  /** As written, an Ingress that Kong manages and that has at least one
      path never completes, whatever the API server answers: no run ends in
      Done, the finalizer is never added and the Ingress's own entry is
      never written. Only Ingresses whose rules have no path reach those
      steps. */
  lemma {:induction false} PathfulIngressNeverStored(
    env: Env, c: State, nsn: NamespacedName, script: seq<Replies>)
    requires Dereferenceable(c.target.shape)
    requires ResolveFirstService(c.target.shape).ServicePath?
    requires !Unmanaged(env, c.target) && c.target.kind != ServiceKind
    requires KeyInjective(env.keyFor)
    ensures RunUpsert(env, c, nsn, script).outcome != Done
    ensures RunUpsert(env, c, nsn, script).cluster.target == c.target
    ensures OwnEntry(env, RunUpsert(env, c, nsn, script).cluster, nsn) == OwnEntry(env, c, nsn)
    decreases |script|
  {
    if |script| > 0 {
      PathfulPassLeavesIngress(env, c, nsn, script[0]);
      var s := StoreIngressObj(env, c, nsn, script[0]);
      if s.outcome == Requeue {
        PathfulIngressNeverStored(env, s.cluster, nsn, script[1..]);
      }
    }
  }

  /** An Ingress with no path converges once every call succeeds: in one
      pass, or two when the Secret must first be created, it ends in Done,
      carrying the finalizer once, its own entry holding its serialised
      form, and every other entry of the Secret as it was. */
  lemma PathlessIngressConverges(env: Env, c: State, nsn: NamespacedName, n: nat)
    requires Dereferenceable(c.target.shape)
    requires ResolveFirstService(c.target.shape).NoPath?
    requires !Unmanaged(env, c.target) && env.namespace != ""
    requires env.serialize(Marked(env, c.target)).Some?
    requires n >= 2
    ensures RunUpsert(env, c, nsn, Calm(n)).outcome == Done
    ensures RunUpsert(env, c, nsn, Calm(n)).cluster ==
      var base := if c.secret.Some? then c.secret.value else map[];
      State(Some(base[env.keyFor(c.target.kind, nsn) := env.serialize(Marked(env, c.target)).value]),
            Marked(env, c.target), c.services)
  {
    CalmTail(n);
    if c.secret.None? {
      var c1 := c.(secret := Some(map[]));
      assert StoreIngressObj(env, c, nsn, AllOk) == Step(c1, Requeue);
      assert RunUpsert(env, c, nsn, Calm(n)) == RunUpsert(env, c1, nsn, Calm(n - 1));
      CalmTail(n - 1);
      PathlessPassStores(env, c1, nsn);
    } else {
      PathlessPassStores(env, c, nsn);
    }
  }

  /** From an existing Secret, one calm pass over a managed Ingress with no
      path puts the finalizer on and stores the Ingress, and nothing else. */
  lemma PathlessPassStores(env: Env, c: State, nsn: NamespacedName)
    requires Dereferenceable(c.target.shape)
    requires ResolveFirstService(c.target.shape).NoPath?
    requires !Unmanaged(env, c.target) && env.namespace != "" && c.secret.Some?
    requires env.serialize(Marked(env, c.target)).Some?
    ensures StoreIngressObj(env, c, nsn, AllOk) ==
      Step(State(Some(c.secret.value[env.keyFor(c.target.kind, nsn) := env.serialize(Marked(env, c.target)).value]),
                 Marked(env, c.target), c.services),
           Done)
  {
    var key := env.keyFor(c.target.kind, nsn);
    var m := c.(target := Marked(env, c.target));
    if HasFinalizer(c.target.meta.finalizers, env.finalizer) {
      assert m == c;
    }
    assert StoreIngressObj(env, c, nsn, AllOk) == WriteOwnEntry(env, m, nsn, Ok);
  }

  /** Upsert is idempotent: a pass that ends in Done leaves a state on
      which a second successful pass changes nothing and ends in Done again. */
  lemma UpsertIdempotent(env: Env, c: State, nsn: NamespacedName)
    requires Dereferenceable(c.target.shape)
    requires StoreIngressObj(env, c, nsn, AllOk).outcome == Done
    ensures StoreIngressObj(env, StoreIngressObj(env, c, nsn, AllOk).cluster, nsn, AllOk)
         == StoreIngressObj(env, c, nsn, AllOk)
  {
    var c1 := StoreIngressObj(env, c, nsn, AllOk).cluster;
    if !Unmanaged(env, c.target) {
      var key := env.keyFor(c.target.kind, nsn);
      assert c1.target.kind == c.target.kind && c1.target.meta.annotations == c.target.meta.annotations;
      assert c1.target.shape == c.target.shape;
      assert HasFinalizer(c1.target.meta.finalizers, env.finalizer);
      var data := c1.secret.value;
      assert data[key := data[key]] == data;
    }
  }

  /** Once the entry is gone, two calm teardown passes finish: the first
      filters the finalizer out (when it is there), the next is Done. */
  lemma TeardownWithoutEntry(env: Env, c: State, nsn: NamespacedName, n: nat)
    requires env.namespace != "" && c.secret.Some?
    requires env.keyFor(c.target.kind, nsn) !in c.secret.value
    requires n >= 2
    ensures RunCleanup(env, c, nsn, Calm(n))
         == Step(c.(target := c.target.WithFinalizers(RemoveFinalizer(c.target.meta.finalizers, env.finalizer))), Done)
  {
    var stripped := c.target.WithFinalizers(RemoveFinalizer(c.target.meta.finalizers, env.finalizer));
    var c2 := c.(target := stripped);
    CalmTail(n);
    if HasFinalizer(c.target.meta.finalizers, env.finalizer) {
      assert CleanupObj(env, c, nsn, AllOk) == Step(c2, Requeue);
      assert RunCleanup(env, c, nsn, Calm(n)) == RunCleanup(env, c2, nsn, Calm(n - 1));
      CalmTail(n - 1);
      assert CleanupObj(env, c2, nsn, AllOk) == Step(c2, Done);
      assert RunCleanup(env, c2, nsn, Calm(n - 1)) == Step(c2, Done);
    } else {
      RemoveAbsentFinalizer(c.target.meta.finalizers, env.finalizer);
      assert c2 == c;
      assert CleanupObj(env, c, nsn, AllOk) == Step(c, Done);
    }
  }

  /** Teardown completes once every call succeeds and the Secret exists:
      within three passes the entry is deleted, then the finalizer, and the
      run ends in Done with every other entry and finalizer as it was. */
  lemma TeardownCompletes(env: Env, c: State, nsn: NamespacedName, n: nat)
    requires env.namespace != "" && c.secret.Some?
    requires n >= 3
    ensures RunCleanup(env, c, nsn, Calm(n)).outcome == Done
    ensures RunCleanup(env, c, nsn, Calm(n)).cluster ==
      State(Some(c.secret.value - {env.keyFor(c.target.kind, nsn)}),
            c.target.WithFinalizers(RemoveFinalizer(c.target.meta.finalizers, env.finalizer)),
            c.services)
  {
    var key := env.keyFor(c.target.kind, nsn);
    if key in c.secret.value {
      var c1 := c.(secret := Some(c.secret.value - {key}));
      CalmTail(n);
      assert CleanupObj(env, c, nsn, AllOk) == Step(c1, Requeue);
      assert RunCleanup(env, c, nsn, Calm(n)) == RunCleanup(env, c1, nsn, Calm(n - 1));
      TeardownWithoutEntry(env, c1, nsn, n - 1);
    } else {
      assert c.secret.value - {key} == c.secret.value;
      TeardownWithoutEntry(env, c, nsn, n);
    }
  }

  /** As written, teardown never removes the finalizer when the Secret is
      absent: every pass reports Done and changes nothing, so the deletion
      of the Ingress stays blocked until the Secret exists again. */
  lemma CleanupWithoutSecretKeepsFinalizer(
    env: Env, c: State, nsn: NamespacedName, n: nat)
    requires env.namespace != "" && c.secret.None?
    ensures RunCleanup(env, c, nsn, Calm(n)).cluster == c
    ensures n > 0 ==> RunCleanup(env, c, nsn, Calm(n)).outcome == Done
  {
  }

  /** Writes of two different keys commute, and each keeps the other's
      entry: when two reconcilers race on the Secret, the loser's retry on
      the fresh Secret keeps the winner's entry. */
  lemma IndependentWritesCommute(
    env: Env, c: State, a: Object, na: NamespacedName, b: Object, nb: NamespacedName)
    requires c.secret.Some?
    requires env.serialize(a).Some? && env.serialize(b).Some?
    requires env.keyFor(a.kind, na) != env.keyFor(b.kind, nb)
    ensures
      var ab := StoreRuntimeObject(env, StoreRuntimeObject(env, c, a, na, Ok).cluster, b, nb, Ok).cluster;
      var ba := StoreRuntimeObject(env, StoreRuntimeObject(env, c, b, nb, Ok).cluster, a, na, Ok).cluster;
      && ab == ba
      && ab.secret.value[env.keyFor(a.kind, na)] == env.serialize(a).value
      && ab.secret.value[env.keyFor(b.kind, nb)] == env.serialize(b).value
  {
    var ka, kb := env.keyFor(a.kind, na), env.keyFor(b.kind, nb);
    var va, vb := env.serialize(a).value, env.serialize(b).value;
    assert c.secret.value[ka := va][kb := vb] == c.secret.value[kb := vb][ka := va];
  }
}

=== FILE: secret_utils.dfy ===
/** One reconcile pass over the configuration Secret: the upsert path
    (storeIngressObj), the single-key write it is built from
    (storeRuntimeObject) and the teardown path (cleanupObj). Each pass is a
    pure step from the cluster state to the next state and an outcome. */
module SecretUtils {
  import opened Objects
  import opened Cluster
  import opened Finalizers

  /** The (requeue, err) pair storeRuntimeObject returns, with the state after. */
  datatype StoreResult = StoreResult(cluster: State, requeue: bool, err: Option<Error>)

  /** Serialise `o`, set its projection entry in the Secret read at the
      start of the pass and update the Secret. A conflicting update asks for
      a requeue instead of failing. */
  function StoreRuntimeObject(env: Env, c: State, o: Object, nsn: NamespacedName, update: Reply)
    : (r: StoreResult)
    requires c.secret.Some?
    ensures !(r.requeue && r.err.Some?)
    ensures !r.requeue && r.err.None? <==> env.serialize(o).Some? && update.Ok?
    ensures !r.requeue && r.err.None? ==>
      && OnlyEntryChanged(c, r.cluster, env.keyFor(o.kind, nsn))
      && env.keyFor(o.kind, nsn) in r.cluster.secret.value
      && r.cluster.secret.value[env.keyFor(o.kind, nsn)] == env.serialize(o).value
    ensures r.requeue <==> env.serialize(o).Some? && update == Fail(Conflict)
    ensures r.requeue || r.err.Some? ==> r.cluster == c
    ensures env.serialize(o).None? ==> r.err == Some(MarshalFailed)
    ensures env.serialize(o).Some? && update.Fail? && update.error != Conflict ==>
      r.err == Some(Api(update.error))
  {
    match env.serialize(o)
    case None => StoreResult(c, false, Some(MarshalFailed))
    case Some(cfg) =>
      var data := c.secret.value[env.keyFor(o.kind, nsn) := cfg];
      match update
      case Ok => StoreResult(c.(secret := Some(data)), false, None)
      case Fail(Conflict) => StoreResult(c, true, None)
      case Fail(e) => StoreResult(c, false, Some(Api(e)))
  }

  /** Look up the Service a path names and store it; whatever the write's
      requeue flag, a pass that gets this far ends in Requeue. */
  function StoreBackendService(env: Env, c: State, svc: NamespacedName, rs: Replies): (r: Step)
    requires c.secret.Some?
    ensures r.outcome != Done
    ensures r.outcome.Failed? ==> r.cluster == c
    ensures r.cluster == c || OnlyEntryChanged(c, r.cluster, env.keyFor(ServiceKind, svc))
    ensures r.cluster != c ==>
      && env.keyFor(ServiceKind, svc) in r.cluster.secret.value
      && env.serialize(ServiceObject(svc)) == Some(r.cluster.secret.value[env.keyFor(ServiceKind, svc)])
    ensures svc !in c.services ==> r == Step(c, Failed(ServiceUnavailable(svc, NotFound)))
    ensures svc in c.services && rs.serviceGet.Fail? ==>
      r == Step(c, Failed(ServiceUnavailable(svc, rs.serviceGet.error)))
    ensures r.outcome == Requeue <==>
      && svc in c.services && rs.serviceGet.Ok? && env.serialize(ServiceObject(svc)).Some?
      && (rs.secretUpdate.Ok? || rs.secretUpdate == Fail(Conflict))
    // a successful update writes the Service's entry
    ensures svc in c.services && rs.serviceGet.Ok? && env.serialize(ServiceObject(svc)).Some?
            && rs.secretUpdate.Ok? ==>
      && OnlyEntryChanged(c, r.cluster, env.keyFor(ServiceKind, svc))
      && env.keyFor(ServiceKind, svc) in r.cluster.secret.value
      && r.cluster.secret.value[env.keyFor(ServiceKind, svc)] == env.serialize(ServiceObject(svc)).value
    // a rejected update, a Conflict included, leaves the Secret as it was
    ensures rs.secretUpdate.Fail? ==> r.cluster == c
    // a marshalling or non-conflict update failure is that error
    ensures svc in c.services && rs.serviceGet.Ok? && env.serialize(ServiceObject(svc)).None? ==>
      r == Step(c, Failed(MarshalFailed))
    ensures (svc in c.services && rs.serviceGet.Ok? && env.serialize(ServiceObject(svc)).Some?
             && rs.secretUpdate.Fail? && rs.secretUpdate.error != Conflict) ==>
      r == Step(c, Failed(Api(rs.secretUpdate.error)))
  {
    if svc !in c.services then Step(c, Failed(ServiceUnavailable(svc, NotFound)))
    else if rs.serviceGet.Fail? then Step(c, Failed(ServiceUnavailable(svc, rs.serviceGet.error)))
    else
      var s := StoreRuntimeObject(env, c, ServiceObject(svc), svc, rs.secretUpdate);
      if s.err.Some? then Step(s.cluster, Failed(s.err.value))
      else Step(s.cluster, Requeue)
  }

  /** Write the reconciled object's own entry: Done on success, Requeue on
      a conflict, the error otherwise. */
  function WriteOwnEntry(env: Env, c: State, nsn: NamespacedName, update: Reply): (r: Step)
    requires c.secret.Some?
    ensures r.outcome == Done <==> env.serialize(c.target).Some? && update.Ok?
    ensures r.outcome == Done ==>
      && OnlyEntryChanged(c, r.cluster, env.keyFor(c.target.kind, nsn))
      && env.keyFor(c.target.kind, nsn) in r.cluster.secret.value
      && r.cluster.secret.value[env.keyFor(c.target.kind, nsn)] == env.serialize(c.target).value
    ensures r.outcome != Done ==> r.cluster == c
    ensures r.outcome == Requeue <==> env.serialize(c.target).Some? && update == Fail(Conflict)
    // a failed write reports storeRuntimeObject's error unchanged
    ensures env.serialize(c.target).None? ==> r == Step(c, Failed(MarshalFailed))
    ensures env.serialize(c.target).Some? && update.Fail? && update.error != Conflict ==>
      r == Step(c, Failed(Api(update.error)))
  {
    var s := StoreRuntimeObject(env, c, c.target, nsn, update);
    if s.err.Some? then Step(s.cluster, Failed(s.err.value))
    else if s.requeue then Step(s.cluster, Requeue)
    else Step(s.cluster, Done)
  }

  /** Put the finalizer on the object when it lacks it (a separate update
      of the object), then write the object's own entry in the same pass. */
  function StoreOwnEntry(env: Env, c: State, nsn: NamespacedName, rs: Replies): (r: Step)
    requires c.secret.Some?
    ensures r.cluster.services == c.services
    ensures r.cluster.target == c.target.WithFinalizers(EnsureFinalizer(c.target.meta.finalizers, env.finalizer))
         || r.cluster.target == c.target
    ensures r.cluster.target != c.target ==>
      !HasFinalizer(c.target.meta.finalizers, env.finalizer) && rs.objectUpdate.Ok?
    ensures !HasFinalizer(c.target.meta.finalizers, env.finalizer) && rs.objectUpdate.Fail? ==>
      r == Step(c, Failed(Api(rs.objectUpdate.error)))
    // the finalizer update is persisted before, and whatever happens to, the entry write
    ensures !HasFinalizer(c.target.meta.finalizers, env.finalizer) && rs.objectUpdate.Ok? ==>
      r.cluster.target == c.target.WithFinalizers(EnsureFinalizer(c.target.meta.finalizers, env.finalizer))
    ensures HasFinalizer(c.target.meta.finalizers, env.finalizer) ==> r.cluster.target == c.target
    // a failed or conflicting entry write leaves the Secret as it was
    ensures r.outcome != Done ==> r.cluster.secret == c.secret
    ensures (HasFinalizer(c.target.meta.finalizers, env.finalizer) || rs.objectUpdate.Ok?) ==>
      (r.outcome == Requeue <==> env.serialize(r.cluster.target).Some? && rs.secretUpdate == Fail(Conflict))
    // a failed entry write reports its error, the finalizer staying on
    ensures (HasFinalizer(c.target.meta.finalizers, env.finalizer) || rs.objectUpdate.Ok?)
            && env.serialize(Marked(env, c.target)).None? ==>
      r == Step(c.(target := Marked(env, c.target)), Failed(MarshalFailed))
    ensures (&& (HasFinalizer(c.target.meta.finalizers, env.finalizer) || rs.objectUpdate.Ok?)
             && env.serialize(Marked(env, c.target)).Some?
             && rs.secretUpdate.Fail? && rs.secretUpdate.error != Conflict) ==>
      r == Step(c.(target := Marked(env, c.target)), Failed(Api(rs.secretUpdate.error)))
    ensures r.cluster.secret.Some?
    ensures r.cluster.secret.value - {env.keyFor(c.target.kind, nsn)}
         == c.secret.value - {env.keyFor(c.target.kind, nsn)}
    ensures r.outcome == Done ==>
      && HasFinalizer(r.cluster.target.meta.finalizers, env.finalizer)
      && env.keyFor(c.target.kind, nsn) in r.cluster.secret.value
      && env.serialize(r.cluster.target) == Some(r.cluster.secret.value[env.keyFor(c.target.kind, nsn)])
    ensures r.outcome == Done <==>
      && (HasFinalizer(c.target.meta.finalizers, env.finalizer) || rs.objectUpdate.Ok?)
      && env.serialize(r.cluster.target).Some? && rs.secretUpdate.Ok?
  {
    var o := c.target;
    if !HasFinalizer(o.meta.finalizers, env.finalizer) then
      if rs.objectUpdate.Fail? then Step(c, Failed(Api(rs.objectUpdate.error)))
      else
        var marked := c.(target := Marked(env, o));
        WriteOwnEntry(env, marked, nsn, rs.secretUpdate)
    else WriteOwnEntry(env, c, nsn, rs.secretUpdate)
  }

  /** The object as a successful upsert leaves it: with the finalizer. */
  function Marked(env: Env, o: Object): (m: Object)
    ensures m.kind == o.kind && m.shape == o.shape
    ensures HasFinalizer(m.meta.finalizers, env.finalizer)
  {
    o.WithFinalizers(EnsureFinalizer(o.meta.finalizers, env.finalizer))
  }

  /** The object is an Ingress that Kong does not manage. */
  predicate Unmanaged(env: Env, o: Object)
  {
    o.kind == IngressKind && !env.isManaged(o.meta.annotations)
  }

  /** The part of an upsert pass before the type switch: the managed test,
      the namespace and the get-or-create of the Secret. None when the pass
      goes on with the Secret found; otherwise the step the pass ends with. */
  function Admit(env: Env, c: State, rs: Replies): (r: Option<Step>)
    ensures r.None? <==>
      !Unmanaged(env, c.target) && env.namespace != "" && rs.secretAccess.Ok? && c.secret.Some?
    ensures r.Some? && r.value.cluster != c ==>
      c.secret.None? && r.value == Step(c.(secret := Some(map[])), Requeue)
    ensures r.Some? && r.value.outcome == Done ==> Unmanaged(env, c.target)
    ensures Unmanaged(env, c.target) ==> r == Some(Step(c, Done))
    // a missing namespace is a configuration error that changes nothing
    ensures !Unmanaged(env, c.target) && env.namespace == "" ==> r == Some(Step(c, Failed(MissingNamespace)))
    // a lost race to create the Secret is retried; any other failure is that error
    ensures !Unmanaged(env, c.target) && env.namespace != "" && rs.secretAccess == Fail(AlreadyExists) ==>
      r == Some(Step(c, Requeue))
    ensures (!Unmanaged(env, c.target) && env.namespace != "" && rs.secretAccess.Fail?
             && rs.secretAccess.error != AlreadyExists) ==>
      r == Some(Step(c, Failed(Api(rs.secretAccess.error))))
    // a Secret that had to be created ends the pass
    ensures !Unmanaged(env, c.target) && env.namespace != "" && rs.secretAccess.Ok? && c.secret.None? ==>
      r == Some(Step(c.(secret := Some(map[])), Requeue))
  {
    if Unmanaged(env, c.target) then Some(Step(c, Done))
    else if env.namespace == "" then Some(Step(c, Failed(MissingNamespace)))
    else
      match GetOrCreateConfigSecret(c, rs.secretAccess)
      case LookupFailed(e) =>
        if e == AlreadyExists then Some(Step(c, Requeue)) else Some(Step(c, Failed(Api(e))))
      case Created(created) => Some(Step(created, Requeue))
      case Found(_) => None
  }

  /** storeIngressObj: one upsert pass for the object `c.target`, reconciled
      under the name `nsn`. */
  function StoreIngressObj(env: Env, c: State, nsn: NamespacedName, rs: Replies): (r: Step)
    requires Dereferenceable(c.target.shape)
    // an unmanaged Ingress is left alone
    ensures Unmanaged(env, c.target) ==> r == Step(c, Done)
    // a missing namespace is a configuration error that changes nothing
    ensures !Unmanaged(env, c.target) && env.namespace == "" ==>
      r == Step(c, Failed(MissingNamespace))
    // a lost race to create the Secret is retried
    ensures !Unmanaged(env, c.target) && env.namespace != "" && rs.secretAccess == Fail(AlreadyExists) ==>
      r == Step(c, Requeue)
    ensures (!Unmanaged(env, c.target) && env.namespace != "" && rs.secretAccess.Fail?
             && rs.secretAccess.error != AlreadyExists) ==>
      r == Step(c, Failed(Api(rs.secretAccess.error)))
    // creating the Secret is all a pass does when it was absent
    ensures !Unmanaged(env, c.target) && env.namespace != "" && rs.secretAccess.Ok? && c.secret.None? ==>
      r == Step(c.(secret := Some(map[])), Requeue)
    // an unsupported object type is an error that changes nothing
    ensures !(c.target.shape.IngressV1? || c.target.shape.IngressV1Beta1?) ==>
      && r.cluster.target == c.target
      && (r.outcome == Done <==> Unmanaged(env, c.target))
      && (c.secret.Some? ==> r.cluster == c)
    // the Services are never changed, nor anything of the object but its finalizers
    ensures r.cluster.services == c.services
    ensures r.cluster.target == c.target.WithFinalizers(r.cluster.target.meta.finalizers)
    ensures r.cluster.secret.None? ==> c.secret.None?
    // a pass that resolves a Service writes at most that Service's entry
    ensures (!Unmanaged(env, c.target) && env.namespace != "" && rs.secretAccess.Ok? && c.secret.Some?
             && ResolveFirstService(c.target.shape).ServicePath?) ==>
      r.outcome != Done && r.cluster.target == c.target
      && (r.cluster == c || OnlyEntryChanged(c, r.cluster,
            env.keyFor(ServiceKind, NamespacedName(c.target.meta.namespace,
                                                   ResolveFirstService(c.target.shape).serviceName))))
    // past the Secret lookup, an unrecognised type is an error ...
    ensures (!Unmanaged(env, c.target) && env.namespace != "" && rs.secretAccess.Ok? && c.secret.Some?
             && ResolveFirstService(c.target.shape).UnsupportedShape?) ==>
      r == Step(c, Failed(UnsupportedType(ResolveFirstService(c.target.shape).typeName)))
    // ... and the first path's Service is looked up and stored, then Requeue
    ensures (!Unmanaged(env, c.target) && env.namespace != "" && rs.secretAccess.Ok? && c.secret.Some?
             && ResolveFirstService(c.target.shape).ServicePath?) ==>
      var svc := NamespacedName(c.target.meta.namespace, ResolveFirstService(c.target.shape).serviceName);
      && (svc !in c.services ==> r == Step(c, Failed(ServiceUnavailable(svc, NotFound))))
      && (svc in c.services && rs.serviceGet.Fail? ==>
            r == Step(c, Failed(ServiceUnavailable(svc, rs.serviceGet.error))))
      && (r.outcome == Requeue <==>
            && svc in c.services && rs.serviceGet.Ok? && env.serialize(ServiceObject(svc)).Some?
            && (rs.secretUpdate.Ok? || rs.secretUpdate == Fail(Conflict)))
      && (rs.secretUpdate.Fail? ==> r.cluster == c)
      && (svc in c.services && rs.serviceGet.Ok? && env.serialize(ServiceObject(svc)).None? ==>
            r == Step(c, Failed(MarshalFailed)))
      && (svc in c.services && rs.serviceGet.Ok? && env.serialize(ServiceObject(svc)).Some?
          && rs.secretUpdate.Fail? && rs.secretUpdate.error != Conflict ==>
            r == Step(c, Failed(Api(rs.secretUpdate.error))))
      && (svc in c.services && rs.serviceGet.Ok? && env.serialize(ServiceObject(svc)).Some?
          && rs.secretUpdate.Ok? ==>
            && env.keyFor(ServiceKind, svc) in r.cluster.secret.value
            && r.cluster.secret.value[env.keyFor(ServiceKind, svc)] == env.serialize(ServiceObject(svc)).value)
    // a pathless pass persists the missing finalizer, then writes its own entry
    ensures (!Unmanaged(env, c.target) && env.namespace != "" && rs.secretAccess.Ok? && c.secret.Some?
             && ResolveFirstService(c.target.shape).NoPath?
             && (HasFinalizer(c.target.meta.finalizers, env.finalizer) || rs.objectUpdate.Ok?)) ==>
      && r.cluster.target == Marked(env, c.target)
      && (r.outcome == Done <==> env.serialize(Marked(env, c.target)).Some? && rs.secretUpdate.Ok?)
      && (r.outcome == Requeue <==> env.serialize(Marked(env, c.target)).Some? && rs.secretUpdate == Fail(Conflict))
      && (r.outcome != Done ==> r.cluster.secret == c.secret)
      && (env.serialize(Marked(env, c.target)).None? ==> r.outcome == Failed(MarshalFailed))
      && (env.serialize(Marked(env, c.target)).Some? && rs.secretUpdate.Fail? && rs.secretUpdate.error != Conflict ==>
            r.outcome == Failed(Api(rs.secretUpdate.error)))
    // ... and a failed finalizer update is that error, with nothing changed
    ensures (!Unmanaged(env, c.target) && env.namespace != "" && rs.secretAccess.Ok? && c.secret.Some?
             && ResolveFirstService(c.target.shape).NoPath?
             && !HasFinalizer(c.target.meta.finalizers, env.finalizer) && rs.objectUpdate.Fail?) ==>
      r == Step(c, Failed(Api(rs.objectUpdate.error)))
    // a finalizer change only ever appends the missing marker
    ensures r.cluster.target != c.target ==>
      && ResolveFirstService(c.target.shape).NoPath?
      && !HasFinalizer(c.target.meta.finalizers, env.finalizer)
      && r.cluster.target.meta.finalizers == c.target.meta.finalizers + [env.finalizer]
    // Done means the object was left alone, or it is fully stored
    ensures r.outcome == Done ==>
      || (Unmanaged(env, c.target) && r.cluster == c)
      || (&& ResolveFirstService(c.target.shape).NoPath?
          && HasFinalizer(r.cluster.target.meta.finalizers, env.finalizer)
          && r.cluster.secret.Some?
          && env.keyFor(c.target.kind, nsn) in r.cluster.secret.value
          && env.serialize(r.cluster.target) == Some(r.cluster.secret.value[env.keyFor(c.target.kind, nsn)]))
  {
    match Admit(env, c, rs)
    case Some(ended) => ended
    case None =>
      var o := c.target;
      match ResolveFirstService(o.shape)
      case UnsupportedShape(t) => Step(c, Failed(UnsupportedType(t)))
      case ServicePath(name) =>
        StoreBackendService(env, c, NamespacedName(o.meta.namespace, name), rs)
      case NoPath => StoreOwnEntry(env, c, nsn, rs)
  }

  /** cleanupObj: one teardown pass for the deleted object `c.target`,
      reconciled under the name `nsn`. */
  function CleanupObj(env: Env, c: State, nsn: NamespacedName, rs: Replies): (r: Step)
    // a missing namespace is a configuration error that changes nothing
    ensures env.namespace == "" ==> r == Step(c, Failed(MissingNamespace))
    // a missing Secret leaves nothing to clean up
    ensures env.namespace != "" && c.secret.None? && rs.secretAccess.Ok? ==> r == Step(c, Done)
    ensures env.namespace != "" && rs.secretAccess == Fail(NotFound) ==> r == Step(c, Done)
    // any other failure of the Secret get is that error
    ensures env.namespace != "" && rs.secretAccess.Fail? && rs.secretAccess.error != NotFound ==>
      r == Step(c, Failed(Api(rs.secretAccess.error)))
    // once the entry is gone, the finalizer is filtered out with Requeue, or the pass is Done
    ensures (env.namespace != "" && rs.secretAccess.Ok? && c.secret.Some?
             && env.keyFor(c.target.kind, nsn) !in c.secret.value) ==>
      r == (if !HasFinalizer(c.target.meta.finalizers, env.finalizer) then Step(c, Done)
            else if rs.objectUpdate.Ok? then
              Step(c.(target := c.target.WithFinalizers(RemoveFinalizer(c.target.meta.finalizers, env.finalizer))),
                   Requeue)
            else Step(c, Failed(Api(rs.objectUpdate.error))))
    // a failed pass changes nothing, and no pass touches the Services
    ensures r.outcome.Failed? ==> r.cluster == c
    ensures r.cluster.services == c.services
    // the entry present is deleted, and only it
    ensures (env.namespace != "" && rs.secretAccess.Ok? && c.secret.Some?
             && env.keyFor(c.target.kind, nsn) in c.secret.value) ==>
      && r.cluster.target == c.target
      && (rs.secretUpdate.Ok? ==>
            && r.outcome == Requeue
            && r.cluster.secret == Some(c.secret.value - {env.keyFor(c.target.kind, nsn)}))
      && (rs.secretUpdate.Fail? ==> r == Step(c, Failed(Api(rs.secretUpdate.error))))
    // the Secret is only ever shrunk by the reconciled object's key
    ensures r.cluster.secret == c.secret
         || (c.secret.Some? && r.cluster.secret == Some(c.secret.value - {env.keyFor(c.target.kind, nsn)}))
    // the finalizer is removed only once the entry is gone, and only it
    ensures r.cluster.target != c.target ==>
      && c.secret.Some? && env.keyFor(c.target.kind, nsn) !in c.secret.value
      && r.cluster.secret == c.secret
      && HasFinalizer(c.target.meta.finalizers, env.finalizer)
      && r.cluster.target == c.target.WithFinalizers(RemoveFinalizer(c.target.meta.finalizers, env.finalizer))
      && r.outcome == Requeue
    // Done: nothing changed, and nothing is left unless the Secret was not found
    ensures r.outcome == Done ==>
      && r.cluster == c
      && (rs.secretAccess == Fail(NotFound) || c.secret.None?
          || (env.keyFor(c.target.kind, nsn) !in c.secret.value
              && !HasFinalizer(c.target.meta.finalizers, env.finalizer)))
  {
    if env.namespace == "" then Step(c, Failed(MissingNamespace))
    else
      match GetConfigSecret(c, rs.secretAccess)
      case Some(e) => if e == NotFound then Step(c, Done) else Step(c, Failed(Api(e)))
      case None =>
        var data := c.secret.value;
        var key := env.keyFor(c.target.kind, nsn);
        if key in data then
          if rs.secretUpdate.Fail? then Step(c, Failed(Api(rs.secretUpdate.error)))
          else Step(c.(secret := Some(data - {key})), Requeue)
        else if HasFinalizer(c.target.meta.finalizers, env.finalizer) then
          var kept := RemoveFinalizer(c.target.meta.finalizers, env.finalizer);
          if rs.objectUpdate.Fail? then Step(c, Failed(Api(rs.objectUpdate.error)))
          else Step(c.(target := c.target.WithFinalizers(kept)), Requeue)
        else Step(c, Done)
  }
}
